=== FILE: README.md ===
# mapstore, modelled in Dafny

mapstore keeps a key-value store in one Kubernetes ConfigMap. The ConfigMap's
BinaryData map holds the pairs. The cluster can only read a ConfigMap whole and
overwrite it whole. This project models the package's core as pure functions
over immutable values and proves properties of that model:

- the Manager of `store.go`, with its cached and pass-through modes;
- its earlier revision, the KeyValue of `keyvalue.go`;
- the cluster client of `kubernetes.go` and its earlier revision `k8s.go`,
  including the two forms of singleton memoisation;
- namespace resolution in `namespace.go`.

The two revisions declare the same Go identifiers, so each gets its own module:
`Store`, `Kubernetes` and `Namespace` for the current one, and `KeyValue` and
`K8s` for the earlier one. `Revisions` proves how the two relate.

The cluster is modelled in `ControlPlane`. A `Cluster` maps (namespace, name)
to an optional BinaryData map, where `None` stands for a nil map. It offers
four whole-object requests: get, create, update and delete. The state also
holds two pieces of bookkeeping:

- a fault plan, used up one entry per request, which can make any request
  fail with a chosen error (`FaultFree` says no more failures are planned);
- a counter of the mutating requests issued, so write avoidance can be stated
  exactly.

API errors are `NotFound`, `Other(code)` for a status error with another
reason, and `Transport(code)` for an error that is not a status error. Creating
an existing ConfigMap fails with `Other(409)` (AlreadyExists).

The environment is an input:

- Namespace resolution takes the variable's value (`None` when unset) and the
  outcome of reading the namespace file.
- Client construction takes a `Bootstrap.Setup`: the outcomes of building the
  rest config, creating the clientset and resolving the namespace.
- `New` and `NewKeyValue` take the outcome of `GetKubeClient` as a parameter.
- The singleton is explicit state, passed in and returned.

Three behaviours of the code are worth naming:

- `Namespace.GetNamespace` returns `""` with no error when the environment
  variable is blank and the namespace file holds only spaces (namespace.go:41).
- `kubernetes.go` retries a failed client construction on the next call, but
  `k8s.go` never does (see Findings).
- `getOrCreateConfigMap` returns a read error only when it is a status error
  other than NotFound (kubernetes.go:117-120). Any other read error, such as a
  transport failure, falls through to the create (kubernetes.go:122-129). The
  comment at kubernetes.go:116 reads as if every other error were returned; the
  model follows the code.

## Model

| member | source | states |
|---|---|---|
| Namespace.TrimSpace | namespace.go:41 | the result is the part of the input left after removing the Unicode spaces at both ends: it has no space at either end, it is empty exactly when the input is all spaces, and only spaces surround it in the input |
| Namespace.TrimSpaceIdempotent | namespace.go:26-29 | trimming a trimmed value changes nothing |
| Namespace.FromEnv | namespace.go:24-33 | succeeds exactly when the variable is set and not all spaces; the value is then trimmed and non-empty; otherwise the error names the variable |
| Namespace.FromPath | namespace.go:35-42 | a read error is returned with the path; otherwise the trimmed contents are returned with no error, and they are empty exactly when the file is all spaces |
| Namespace.GetNamespace | namespace.go:15-22 | a non-blank environment value wins, trimmed, and the file is not consulted; otherwise the file decides; it fails exactly when the variable is blank and the file read fails; any result is trimmed; `""` comes back only from a blank file |
| Bootstrap.Construct | kubernetes.go:66-98 | the path variable chooses between the config file and in-cluster discovery; the error of the first failing step (config, clientset, namespace) is returned; a client exists only when every step succeeds, and it holds the resolved, trimmed namespace |
| Kubernetes.GetOrCreateConfigMap | kubernetes.go:107-130 | an existing ConfigMap is returned unchanged with no write; on a healthy cluster a missing one is created with nil data (one write) and afterwards exists; a status error other than NotFound is returned and nothing is created; a read error that is not a status error falls through to the create, as NotFound does; whatever succeeds is what the cluster now holds |
| Kubernetes.Get | kubernetes.go:133-140 | returns exactly the stored data; a missing ConfigMap, or an injected failure, is an error; nothing changes |
| Kubernetes.Set | kubernetes.go:143-163 | issues exactly one mutating request; on success the ConfigMap holds exactly the given map, by update or by create; on failure nothing changes; on a healthy cluster it succeeds |
| Kubernetes.Delete | kubernetes.go:166-175 | NotFound counts as success; on a healthy cluster the ConfigMap is gone afterwards and nothing else changes; a reported failure is never NotFound and changes nothing |
| Kubernetes.SetThenGet | kubernetes.go:143-163 | after Set, Get returns exactly the map that was set |
| Kubernetes.SetTurnsFailedReadIntoCreate | kubernetes.go:145-160 | any failed read sends Set to the create branch, so a failed read of an existing ConfigMap ends in AlreadyExists and changes nothing |
| Kubernetes.DeleteIsIdempotent | kubernetes.go:166-175 | deleting twice succeeds both times, and the second delete changes nothing |
| Kubernetes.GetKubeClient | kubernetes.go:60-101 | an existing singleton is returned and nothing is constructed; otherwise the outcome is that of construction; the singleton is set to the client on success and stays nil on failure |
| Kubernetes.SingletonIsReused | kubernetes.go:62-64 | once a client has been returned, the next call returns the same client whatever the environment says |
| Kubernetes.FailureIsRetried | kubernetes.go:67-98 | after a failed call, the next call constructs afresh |
| Kubernetes.VerifyConnection | kubernetes.go:29-57 | a client acquisition failure is returned and touches nothing; otherwise the error of the first failing Set, Get or Delete is returned, and the cluster is as that request left it; success means a client was acquired and two writes were issued; with a client on a healthy cluster it succeeds, removes the test ConfigMap, leaves every other ConfigMap as it was and issues two writes; with no other writer the "data is mismatched" error cannot occur |
| Kubernetes.CheckReadBack | kubernetes.go:51-52 | the read-back passes exactly when key "test" is present and holds the bytes "ok"; any other content, nil data included, is ErrDataMismatched |
| K8s.Get | k8s.go:76-83 | returns exactly the stored data; a missing ConfigMap, or an injected failure, is an error; nothing changes |
| K8s.Set | k8s.go:85-105 | issues exactly one mutating request; on success the ConfigMap holds exactly the given map; on failure nothing changes |
| K8s.SetCreatesMissing | k8s.go:93-104 | on a missing ConfigMap, Set creates it, and Get then returns exactly the given map |
| K8s.SetReplacesWholesale | k8s.go:87-91 | on an existing ConfigMap, Set replaces the whole map: a key not in the new map is gone |
| K8s.SetTurnsFailedReadIntoCreate | k8s.go:87-104 | any failed read, not only NotFound, sends Set to the create branch, where an existing ConfigMap is refused |
| K8s.GetKubeClient | k8s.go:28-70 | construction runs only on the first call; that call returns construction's outcome and stores the client only on success; every later call returns the stored singleton with no error |
| K8s.CallsAfterDone | k8s.go:31-69 | once construction has run, every call in any sequence returns the stored singleton with no error |
| K8s.RunsAtMostOnce | k8s.go:28-70 | from a fresh process, the first call reports construction's outcome; after a success every later call returns that same client; after a failure every later call returns a nil client and a nil error |
| Store.New | store.go:45-69 | fails when the client cannot be acquired, or, in cached mode, exactly when get-or-create fails; pass-through mode makes no request; the new manager's view is what the cluster holds (a nil map reads as empty) |
| Store.GetMapData | store.go:71-91 | cached mode returns the cache and makes no request; pass-through mode returns the stored data, reads NotFound and a nil map as empty, and returns any other error; nothing is written |
| Store.Keys | store.go:93-110 | returns each key of the current view exactly once, and nothing else; a fetch error is passed through; nothing is written |
| Store.Get | store.go:113-130 | when the read succeeds (always, in cached mode) it returns the view's value for a present key and ErrKeyValueNotFound for an absent one; in pass-through mode a read error other than NotFound is returned; nothing is written; cached mode makes no request; any other error is a fetch error that is not NotFound |
| Store.Raw | store.go:133-144 | when the read succeeds (always, in cached mode) it returns the whole view; in pass-through mode a read error other than NotFound is returned; cached mode makes no request; an error is a fetch error that is not NotFound |
| Store.SetValue | store.go:162-181 | unforced, with a byte-equal value already present and the read succeeding, nothing is written and nothing changes; otherwise, on a healthy cluster, the view maps the key to the value, other keys keep theirs, and the whole map is written once; in cached mode the cache takes the new value whether or not the write succeeds; in pass-through mode a read error other than NotFound is returned; nothing is written and the manager is unchanged |
| Store.Set | store.go:147-152 | the manager keeps its name, client and mode, and a pass-through manager is unchanged; in cached mode a differing value goes into the cache before the one write, whether or not the write succeeds; a byte-equal value already present costs no write and changes nothing whenever the read succeeds, and a cached manager then makes no request at all; on a healthy cluster a write is issued exactly when the value differs, and afterwards the view maps the key to the value and the ConfigMap holds the updated map, other ConfigMaps untouched; in pass-through mode a read error other than NotFound is returned; nothing is written and the manager is unchanged |
| Store.ForceSet | store.go:155-160 | the manager keeps its name, client and mode, and a pass-through manager is unchanged; on a healthy cluster, or in cached mode, issues exactly one whole-map write, even for an unchanged value; the cache takes the value before the write; on a healthy cluster the view and the ConfigMap then map the key to the value, other keys unchanged; in pass-through mode a read error other than NotFound is returned; nothing is written and the manager is unchanged |
| Store.Delete | store.go:184-199 | in cached mode the key leaves the cache and one write is issued; on a healthy cluster it removes only the given key from the view and the ConfigMap, and writes the whole map whether or not the key existed; in pass-through mode a read error other than NotFound is returned; nothing is written and the manager is unchanged |
| Store.Truncate | store.go:202-213 | without reading, empties the cache (when cached) and writes an empty map in exactly one write; on a healthy cluster the view is then empty |
| Store.SetThenGet | store.go:162-181 | a value that was set reads back byte for byte |
| Store.SetLeavesOtherKeys | store.go:177-180 | setting one key leaves every other key's reading unchanged |
| Store.SetTwiceWritesOnce | store.go:169-174 | setting the same value twice writes at most once; the second call writes nothing and changes nothing |
| Store.ForceSetTwiceWritesTwice | store.go:155-160 | ForceSet with the same value twice writes twice |
| Store.DeleteThenGet | store.go:184-199 | after Delete the key is not found, whether or not it had been set |
| Store.TruncateThenGet | store.go:202-213 | on a healthy cluster, after Truncate every key is not found |
| Store.CachedIgnoresCluster | store.go:71-74 | a cached manager's Get and Raw do not depend on what the cluster holds |
| Store.CachedKeepsValueWhenWriteFails | store.go:176-180 | in cached mode the cache is changed before the write, so when both requests of the write fail the new value is still readable from this manager but the ConfigMap is unchanged |
| Store.CachedWriteDiscardsOtherWriters | store.go:176-180 | a cached manager's write replaces the ConfigMap with its cache, losing keys another writer added |
| Store.PassThroughManagersShare | store.go:76-90 | a value set through one pass-through manager is read by another on the same ConfigMap |
| Store.OpenCachedOnMissing | store.go:52-60 | a cached manager opened on a missing ConfigMap creates it empty and starts with no keys; a value set afterwards reads back, and Raw returns exactly that one pair |
| KeyValue.NewKeyValue | keyvalue.go:33-56 | fails exactly when the client cannot be acquired, or when caching is asked for and get-or-create fails; the cache is the returned BinaryData, nil included |
| KeyValue.GetMapData | keyvalue.go:58-76 | a non-nil cache is returned with no request; otherwise the stored data is returned, NotFound and a nil map read as empty, and any other error is returned |
| KeyValue.Get | keyvalue.go:79-96 | when the read succeeds (always, with a cache) it returns the view's value for a present key and ErrKeyValueNotFound for an absent one; without a cache a read error other than NotFound is returned; nothing is written |
| KeyValue.Put | keyvalue.go:114-118 | puts the key into the fetched map (and into the cache when there is one) and writes that map once; on success the ConfigMap holds exactly it |
| KeyValue.Set | keyvalue.go:99-119 | the KeyValue keeps its name, client and whether it caches, and one without a cache is unchanged; with a cache, a differing value goes into the cache before the one write; a byte-equal value already present costs no write and changes nothing whenever the read succeeds, and a cache holding it makes no request; on a healthy cluster a write is issued exactly when the value differs, and afterwards the view and the ConfigMap map the key to the value with other keys unchanged; in pass-through mode a read error other than NotFound is returned; nothing is written and the KeyValue is unchanged |
| KeyValue.ForceSet | keyvalue.go:122-137 | the KeyValue keeps its name, client and whether it caches, and one without a cache is unchanged; with a cache, or on a healthy cluster, writes exactly once even for an unchanged value; on a healthy cluster the view and the ConfigMap then map the key to the value, other keys unchanged; in pass-through mode a read error other than NotFound is returned; nothing is written and the KeyValue is unchanged |
| KeyValue.SetThenGet | keyvalue.go:109-118 | a value that was set reads back byte for byte |
| KeyValue.WritesChangeOnlyTheKey | keyvalue.go:132-136 | Set and ForceSet leave every other key's reading unchanged |
| KeyValue.NilBinaryDataMeansPassThrough | keyvalue.go:41-48 | asking for a cache on a missing ConfigMap gives a KeyValue with a nil cache, which then sees later writes by others |
| Revisions.ClientOperationsAgree | k8s.go:76-105 | the client Get and Set of the two revisions behave identically on every input |
| Revisions.ManagersAgree | keyvalue.go:58-137 | a Manager and a KeyValue in the same mode over the same data give the same Get, Set and ForceSet results and stay in step |
| Revisions.SingletonRetryDiffers | k8s.go:31-69 | after a failed first construction, the current revision constructs again, while the earlier one returns a nil client with no error |
| Revisions.CachingOnMissingDiffers | keyvalue.go:41-48 | asked to cache on a missing ConfigMap, the Manager ignores a later write by another writer, while the KeyValue sees it |

## Left out

- Locking: the `sync.RWMutex` of Manager and KeyValue, and the thread safety of `sync.Once`. Each operation is modelled as atomic.
- Client construction: `clientcmd.BuildConfigFromFlags`, `rest.InClusterConfig`, `kubernetes.NewForConfig` and the auth plugins are foreign library calls. They are reduced to the outcomes in `Bootstrap.Setup`. The request context is left out.
- ConfigMap metadata and the string `Data` field: only BinaryData is modelled. An update keeps the object's other fields, and the model does not represent them.
- The real API server may turn an empty BinaryData into nil on a round trip. The model stores exactly what was written.
- Go map aliasing: Raw and getMapData return the live cache map, so a caller that changes it changes the cache. The model returns values. The aliasing matters only in `set` and `Delete`, where the cache changes before the write, and the model states that ordering.
- Environment and file-system access: these are inputs. TrimSpace works on decoded characters, so invalid UTF-8 in the namespace file is not modelled.
- Store.New and KeyValue.NewKeyValue take the outcome of GetKubeClient as a parameter instead of calling it. When k8s.go's GetKubeClient returns a nil client with a nil error, the Go code dereferences nil and panics; the model does not include this.
- verify.go: another VerifyConnection that calls `getKubeClient`, `set`, `get` and `delete`. Those functions are not part of this model. The same sequence is modelled from kubernetes.go.
- The HTTP sidecar (`cmd/sidecar`), the examples and `doc.go`: front-end plumbing and usage samples with no logic of their own.
- Kubernetes.VerifyConnection: each call is atomic in the model, so no writer runs between its Set and its Get, and the "data is mismatched" branch cannot be reached from it. Kubernetes.CheckReadBack states what that branch decides.
- Failed requests have no effect in the model: a create, update or delete that fails leaves the cluster as it was. A real transport error can arrive after the server has applied the write. The "nothing changes on failure" clauses of Kubernetes.Set, K8s.Set and Kubernetes.Delete, and Store.CachedKeepsValueWhenWriteFails, rely on this.
- Concurrent writers in other processes are not modelled as separate actors. Their effect appears only as a cluster that changed between calls: see Store.CachedWriteDiscardsOtherWriters and Revisions.CachingOnMissingDiffers.

## Findings

| source | as written | input that shows it | evidently intended | confidence | as-written member | corrected member |
|---|---|---|---|---|---|---|
| k8s.go:28-70 | after the first construction fails, `once.Do` never runs again, and `err` is a fresh nil, so every later call returns a nil client with a nil error | first call with a setup whose config step fails, then any second call | a failed construction is reported again or retried, never a nil client without an error (the later revision retries) | medium, not executed | K8s.RunsAtMostOnce | Kubernetes.FailureIsRetried |
| keyvalue.go:41-48 | the cache is the fetched or created ConfigMap's BinaryData, and a newly created ConfigMap has nil BinaryData, so a KeyValue that asked for caching falls back to pass-through | `NewKeyValue(name, true)` on a ConfigMap that does not exist | caching is on whenever it is asked for, seeded with an empty map (as store.go does with its mode flag) | medium, not executed | KeyValue.NilBinaryDataMeansPassThrough | Store.OpenCachedOnMissing |

=== FILE: bootstrap.dfy ===
/**
 * Construction of the cluster client, shared by both revisions of
 * GetKubeClient. The Kubernetes client libraries are outside the model: each
 * construction step is reduced to the outcome the outside world gives it.
 */
module Bootstrap {
  import opened Results
  import opened Errors
  import Namespace

  /** A connected client: an opaque clientset bound to the namespace it works in. */
  datatype KubeClient = KubeClient(clientset: nat, namespace: string)

  /**
   * The answers of the environment to each construction step:
   * the cluster-config-path variable (`None` when unset), the outcome of
   * building a config from that path, the outcome of in-cluster discovery,
   * the outcome of creating the clientset, the namespace variable and the
   * outcome of reading the namespace file.
   */
  datatype Setup = Setup(
    clusterConfigPath: Option<string>,
    fromConfigFile: Result<(), int>,
    inCluster: Result<(), int>,
    clientset: Result<nat, int>,
    namespaceEnv: Option<string>,
    namespaceFile: Result<string, int>)

  /** The rest-config step: the path variable, when set, selects the config file over in-cluster discovery. */
  function ConfigStep(s: Setup): (r: Result<(), int>) {
    if s.clusterConfigPath.Some? then s.fromConfigFile else s.inCluster
  }

  function ResolvedNamespace(s: Setup): (r: Result<string, Error>) {
    Namespace.GetNamespace(s.namespaceEnv, s.namespaceFile)
  }

  /**
   * Config, then clientset, then namespace; the first failing step's error is
   * returned and a client exists only when every step succeeded.
   */
  function Construct(s: Setup): (r: Result<KubeClient, Error>)
    ensures r.Success? <==> ConfigStep(s).Success? && s.clientset.Success? && ResolvedNamespace(s).Success?
    ensures r.Success? ==> r.value == KubeClient(s.clientset.value, ResolvedNamespace(s).value)
    ensures r.Success? ==> Namespace.Trimmed(r.value.namespace)
    ensures ConfigStep(s).Failure? ==> r == Failure(ConfigFailed(ConfigStep(s).error))
    ensures ConfigStep(s).Success? && s.clientset.Failure? ==> r == Failure(ConfigFailed(s.clientset.error))
    ensures ConfigStep(s).Success? && s.clientset.Success? && ResolvedNamespace(s).Failure? ==> r == Failure(ResolvedNamespace(s).error)
  {
    match ConfigStep(s)
    case Failure(code) => Failure(ConfigFailed(code))
    case Success(_) =>
      match s.clientset
      case Failure(code) => Failure(ConfigFailed(code))
      case Success(cs) =>
        match ResolvedNamespace(s)
        case Failure(e) => Failure(e)
        case Success(ns) => Success(KubeClient(cs, ns))
  }
}

=== FILE: control_plane.dfy ===
/**
 * The Kubernetes API server, reduced to what this package touches: ConfigMaps
 * identified by namespace and name, each holding an optional BinaryData map,
 * and four whole-object requests (get, create, update, delete).
 *
 * Two pieces of bookkeeping are added to the state:
 *  - `faults` is a plan of injected failures, consumed one entry per request;
 *    `Some(e)` makes that request fail with `e` and have no effect. A plan
 *    that has run out lets every further request through.
 *  - `writes` counts the mutating requests issued (create, update, delete),
 *    whether or not they succeed, so that write avoidance can be stated exactly.
 */
module ControlPlane {
  import opened Results

  type Bytes = seq<bv8>

  /** The contents of a ConfigMap's BinaryData field. */
  type Data = map<string, Bytes>

  datatype ObjectKey = ObjectKey(namespace: string, name: string)

  /**
   * Errors returned by the API: a status error whose reason is NotFound, a
   * status error with any other reason (carrying its HTTP code), or an error
   * that is not a status error at all (a transport or client-side failure).
   */
  datatype ApiError = NotFound | Other(code: int) | Transport(code: int)

  /** HTTP code of the AlreadyExists status returned by a create of an existing object. */
  const AlreadyExistsCode: int := 409

  /** Every ConfigMap is present with its BinaryData, `None` standing for a nil map. */
  datatype Cluster = Cluster(objects: map<ObjectKey, Option<Data>>, faults: seq<Option<ApiError>>, writes: nat)

  /** What a request returns, together with the cluster after it. */
  datatype Response<T> = Response(result: Result<T, ApiError>, cluster: Cluster)

  /** No further request will have a failure injected. */
  predicate FaultFree(c: Cluster) {
    forall i | 0 <= i < |c.faults| :: c.faults[i].None?
  }

  /** The failure injected into the next request, if any. */
  function NextFault(c: Cluster): (f: Option<ApiError>)
    ensures FaultFree(c) ==> f.None?
  {
    if |c.faults| == 0 then None else c.faults[0]
  }

  /** The cluster once the next request has used up its entry of the fault plan. */
  function Consume(c: Cluster): (c': Cluster)
    ensures c'.objects == c.objects && c'.writes == c.writes
    ensures FaultFree(c) ==> FaultFree(c')
  {
    if |c.faults| == 0 then c else c.(faults := c.faults[1..])
  }

  /**
   * The data a reader sees when it treats a missing object or a nil
   * BinaryData as an empty map.
   */
  function Contents(c: Cluster, k: ObjectKey): (d: Data) {
    if k in c.objects then c.objects[k].GetOr(map[]) else map[]
  }

  /** GET of one ConfigMap: its BinaryData, or NotFound. */
  function Read(c: Cluster, k: ObjectKey): (r: Response<Option<Data>>)
    ensures r.cluster.objects == c.objects && r.cluster.writes == c.writes
    ensures FaultFree(c) ==> FaultFree(r.cluster)
    ensures NextFault(c).None? ==> r.result == (if k in c.objects then Success(c.objects[k]) else Failure(NotFound))
  {
    var c' := Consume(c);
    match NextFault(c)
    case Some(e) => Response(Failure(e), c')
    case None => if k in c.objects then Response(Success(c.objects[k]), c') else Response(Failure(NotFound), c')
  }

  /** POST of a new ConfigMap; an existing one is refused with AlreadyExists. */
  function Create(c: Cluster, k: ObjectKey, binaryData: Option<Data>): (r: Response<Option<Data>>)
    ensures r.cluster.writes == c.writes + 1
    ensures FaultFree(c) ==> FaultFree(r.cluster)
    ensures r.result.Success? <==> NextFault(c).None? && k !in c.objects
    ensures r.result.Success? ==> r.result.value == binaryData && r.cluster.objects == c.objects[k := binaryData]
    ensures r.result.Failure? ==> r.cluster.objects == c.objects
    ensures NextFault(c).None? && k in c.objects ==> r.result == Failure(Other(AlreadyExistsCode))
  {
    var c' := Consume(c).(writes := c.writes + 1);
    match NextFault(c)
    case Some(e) => Response(Failure(e), c')
    case None =>
      if k in c.objects then Response(Failure(Other(AlreadyExistsCode)), c')
      else Response(Success(binaryData), c'.(objects := c.objects[k := binaryData]))
  }

  /** PUT of an existing ConfigMap, replacing its BinaryData; a missing one is NotFound. */
  function Update(c: Cluster, k: ObjectKey, binaryData: Option<Data>): (r: Response<()>)
    ensures r.cluster.writes == c.writes + 1
    ensures FaultFree(c) ==> FaultFree(r.cluster)
    ensures r.result.Success? <==> NextFault(c).None? && k in c.objects
    ensures r.result.Success? ==> r.cluster.objects == c.objects[k := binaryData]
    ensures r.result.Failure? ==> r.cluster.objects == c.objects
    ensures NextFault(c).None? && k !in c.objects ==> r.result == Failure(NotFound)
  {
    var c' := Consume(c).(writes := c.writes + 1);
    match NextFault(c)
    case Some(e) => Response(Failure(e), c')
    case None =>
      if k in c.objects then Response(Success(()), c'.(objects := c.objects[k := binaryData]))
      else Response(Failure(NotFound), c')
  }

  /** DELETE of a ConfigMap; a missing one is NotFound. */
  function Remove(c: Cluster, k: ObjectKey): (r: Response<()>)
    ensures r.cluster.writes == c.writes + 1
    ensures FaultFree(c) ==> FaultFree(r.cluster)
    ensures r.result.Success? <==> NextFault(c).None? && k in c.objects
    ensures r.result.Success? ==> r.cluster.objects == c.objects - {k}
    ensures r.result.Failure? ==> r.cluster.objects == c.objects
    ensures NextFault(c).None? && k !in c.objects ==> r.result == Failure(NotFound)
  {
    var c' := Consume(c).(writes := c.writes + 1);
    match NextFault(c)
    case Some(e) => Response(Failure(e), c')
    case None =>
      if k in c.objects then Response(Success(()), c'.(objects := c.objects - {k}))
      else Response(Failure(NotFound), c')
  }
}

=== FILE: errors.dfy ===
/** The errors the package's operations can return. */
module Errors {
  import opened ControlPlane

  datatype Error =
    /** An API error passed through unchanged. */
    | Api(cause: ApiError)
    /** Building the rest config, or the clientset from it, failed. */
    | ConfigFailed(code: int)
    /** getNamespaceFromEnv: the variable is unset or blank. */
    | NoValueInEnv(variable: string)
    /** Reading the namespace file failed. */
    | ReadFailed(path: string, code: int)
    /** ErrKeyValueNotFound: the key is absent from the current view. */
    | KeyValueNotFound
    /** VerifyConnection read back something other than what it wrote. */
    | DataMismatched
}

=== FILE: k8s.dfy ===
/**
 * k8s.go: the earlier revision of the cluster client. Its Get and Set are the
 * same code as in kubernetes.go; its GetKubeClient guards construction with a
 * sync.Once, modelled as a flag recording whether construction has run.
 */
module K8s {
  import opened Results
  import opened ControlPlane
  import opened Errors
  import opened Bootstrap

  function Key(kc: KubeClient, name: string): (k: ObjectKey) {
    ObjectKey(kc.namespace, name)
  }

  /** Get: the ConfigMap's BinaryData; every error, NotFound included, is returned. */
  function Get(kc: KubeClient, c: Cluster, name: string): (r: Response<Option<Data>>)
    ensures r.cluster.objects == c.objects && r.cluster.writes == c.writes
    ensures FaultFree(c) ==> FaultFree(r.cluster)
    ensures var k := Key(kc, name);
      NextFault(c).None? ==> r.result == (if k in c.objects then Success(c.objects[k]) else Failure(NotFound))
    ensures NextFault(c).Some? ==> r.result == Failure(NextFault(c).value)
  {
    Read(c, Key(kc, name))
  }

  /** Set: update when the read succeeds, create when it fails; the ConfigMap then holds exactly `data`. */
  function Set(kc: KubeClient, c: Cluster, name: string, data: Data): (r: Response<()>)
    ensures r.cluster.writes == c.writes + 1
    ensures r.result.Success? ==> r.cluster.objects == c.objects[Key(kc, name) := Some(data)]
    ensures r.result.Failure? ==> r.cluster.objects == c.objects
    ensures FaultFree(c) ==> r.result.Success? && FaultFree(r.cluster)
  {
    var k := Key(kc, name);
    var got := Read(c, k);
    if got.result.Success? then Update(got.cluster, k, Some(data))
    else
      var made := Create(got.cluster, k, Some(data));
      Response(if made.result.Success? then Success(()) else Failure(made.result.error), made.cluster)
  }

  /** On a missing ConfigMap, Set creates it holding exactly `data`. */
  lemma SetCreatesMissing(kc: KubeClient, c: Cluster, name: string, data: Data)
    requires FaultFree(c) && Key(kc, name) !in c.objects
    ensures var r := Set(kc, c, name, data);
      && r.result.Success?
      && Get(kc, r.cluster, name).result == Success(Some(data))
  {
  }

  /** On an existing ConfigMap, Set replaces the whole map: keys absent from `data` are gone. */
  lemma SetReplacesWholesale(kc: KubeClient, c: Cluster, name: string, data: Data, dropped: string)
    requires FaultFree(c) && Key(kc, name) in c.objects
    requires dropped !in data
    ensures var r := Set(kc, c, name, data);
      && Get(kc, r.cluster, name).result == Success(Some(data))
      && dropped !in Get(kc, r.cluster, name).result.value.value
  {
  }

  /** Set takes any failed read for a missing ConfigMap, so a failed read of an existing one ends in a refused create. */
  lemma SetTurnsFailedReadIntoCreate(kc: KubeClient, c: Cluster, name: string, data: Data)
    requires Key(kc, name) in c.objects
    requires NextFault(c).Some? && NextFault(Consume(c)).None?
    ensures Set(kc, c, name, data).result == Failure(Other(AlreadyExistsCode))
  {
  }

  /** The sync.Once flag and the package-level singleton. */
  datatype Once = Once(done: bool, singleton: Option<KubeClient>)

  const Fresh: Once := Once(false, None)

  /** GetKubeClient's two results: the client (`None` for nil) or the error. */
  datatype Acquired = Acquired(result: Result<Option<KubeClient>, Error>, state: Once)

  /**
   * GetKubeClient: construction runs on the first call only. That call returns
   * its outcome; every later call returns the singleton with a nil error, which
   * after a failed first run is a nil client.
   */
  function GetKubeClient(st: Once, setup: Setup): (r: Acquired)
    ensures r.state.done
    ensures st.done ==> r == Acquired(Success(st.singleton), st)
    ensures !st.done && Construct(setup).Success? ==>
      r.result == Success(Some(Construct(setup).value)) && r.state.singleton == Some(Construct(setup).value)
    ensures !st.done && Construct(setup).Failure? ==>
      r.result == Failure(Construct(setup).error) && r.state.singleton == st.singleton
  {
    if st.done then Acquired(Success(st.singleton), st)
    else
      match Construct(setup)
      case Success(kc) => Acquired(Success(Some(kc)), Once(true, Some(kc)))
      case Failure(e) => Acquired(Failure(e), st.(done := true))
  }

  /** The results of calling GetKubeClient once per setup, in order. */
  function Calls(st: Once, setups: seq<Setup>): (rs: seq<Result<Option<KubeClient>, Error>>)
    ensures |rs| == |setups|
    decreases |setups|
  {
    if |setups| == 0 then []
    else
      var a := GetKubeClient(st, setups[0]);
      [a.result] + Calls(a.state, setups[1..])
  }

  /** Once construction has run, every call returns the stored singleton with no error. */
  lemma {:induction false} CallsAfterDone(st: Once, setups: seq<Setup>)
    requires st.done
    decreases |setups|
    ensures forall i | 0 <= i < |setups| :: Calls(st, setups)[i] == Success(st.singleton)
  {
    if |setups| > 0 {
      CallsAfterDone(st, setups[1..]);
      assert Calls(st, setups) == [Success(st.singleton)] + Calls(st, setups[1..]);
    }
  }

  /**
   * From a fresh process: the first call reports construction's outcome; after
   * a success every later call returns the same client, and after a failure
   * every later call returns a nil client and a nil error.
   */
  lemma RunsAtMostOnce(setups: seq<Setup>)
    requires |setups| > 0
    ensures var rs := Calls(Fresh, setups);
      && (Construct(setups[0]).Success? ==> rs[0] == Success(Some(Construct(setups[0]).value)))
      && (Construct(setups[0]).Failure? ==> rs[0] == Failure(Construct(setups[0]).error))
      && forall i | 1 <= i < |rs| :: rs[i] == (if rs[0].Success? then rs[0] else Success(None))
  {
    var a := GetKubeClient(Fresh, setups[0]);
    CallsAfterDone(a.state, setups[1..]);
    assert Calls(Fresh, setups) == [a.result] + Calls(a.state, setups[1..]);
  }
}

=== FILE: keyvalue.dfy ===
/**
 * keyvalue.go: the earlier revision of the manager, offering Get, Set and
 * ForceSet. It has no mode flag: it is cached exactly when its cache is
 * non-nil (`Some`). Since the cache is copied from the fetched or created
 * ConfigMap's BinaryData, a ConfigMap with nil BinaryData leaves a manager
 * that asked for caching in pass-through mode.
 */
module KeyValue {
  import opened Results
  import opened ControlPlane
  import opened Errors
  import opened Bootstrap
  import Kubernetes
  import K8s

  datatype KeyValue = KeyValue(configmapName: string, client: KubeClient, internalCache: Option<Data>)

  datatype Fetched<T> = Fetched(result: Result<T, Error>, cluster: Cluster)

  datatype Written = Written(result: Result<(), Error>, kv: KeyValue, cluster: Cluster)

  function Key(kv: KeyValue): (k: ObjectKey) {
    K8s.Key(kv.client, kv.configmapName)
  }

  predicate Cached(kv: KeyValue) {
    kv.internalCache.Some?
  }

  /** The map a KeyValue presents: its cache when it has one, otherwise what the cluster holds now. */
  function View(kv: KeyValue, c: Cluster): (d: Data) {
    if Cached(kv) then kv.internalCache.value else Contents(c, Key(kv))
  }

  /** The KeyValue keeps its ConfigMap, its client and whether it caches; only the cache's contents may change. */
  predicate SameKeyValue(kv: KeyValue, kv': KeyValue) {
    kv'.configmapName == kv.configmapName && kv'.client == kv.client && (Cached(kv') <==> Cached(kv))
  }

  /**
   * NewKeyValue: fails when the client could not be acquired, or when caching
   * is asked for and get-or-create fails; the cache is then the ConfigMap's
   * BinaryData as it came back, nil included.
   */
  function NewKeyValue(cmName: string, cacheInternally: bool, acquired: Result<KubeClient, Error>, c: Cluster): (r: Fetched<KeyValue>)
    ensures r.result.Failure? <==>
      acquired.Failure? || (cacheInternally && Kubernetes.GetOrCreateConfigMap(acquired.value, c, cmName).result.Failure?)
    ensures acquired.Failure? ==> r == Fetched(Failure(acquired.error), c)
    ensures acquired.Success? && !cacheInternally ==>
      r == Fetched(Success(KeyValue(cmName, acquired.value, None)), c)
    ensures r.result.Success? && cacheInternally ==>
      var kv := r.result.value;
      && kv.configmapName == cmName && kv.client == acquired.value
      && Key(kv) in r.cluster.objects && kv.internalCache == r.cluster.objects[Key(kv)]
    ensures r.result.Success? ==> View(r.result.value, r.cluster) == Contents(r.cluster, Key(r.result.value))
  {
    match acquired
    case Failure(e) => Fetched(Failure(e), c)
    case Success(kc) =>
      if !cacheInternally then Fetched(Success(KeyValue(cmName, kc, None)), c)
      else
        var got := Kubernetes.GetOrCreateConfigMap(kc, c, cmName);
        match got.result
        case Failure(e) => Fetched(Failure(Api(e)), got.cluster)
        case Success(binaryData) => Fetched(Success(KeyValue(cmName, kc, binaryData)), got.cluster)
  }

  /**
   * getMapData: the cache when there is one, without any request; otherwise
   * the ConfigMap's data, where NotFound and a nil BinaryData read as empty and
   * any other error is returned.
   */
  function GetMapData(kv: KeyValue, c: Cluster): (r: Fetched<Data>)
    ensures Cached(kv) ==> r == Fetched(Success(kv.internalCache.value), c)
    ensures !Cached(kv) && NextFault(c).None? ==> r.result == Success(Contents(c, Key(kv)))
    ensures !Cached(kv) && NextFault(c).Some? ==>
      r.result == (if NextFault(c).value == NotFound then Success(map[]) else Failure(Api(NextFault(c).value)))
    ensures r.cluster.objects == c.objects && r.cluster.writes == c.writes
    ensures FaultFree(c) ==> r.result == Success(View(kv, c)) && FaultFree(r.cluster)
  {
    match kv.internalCache
    case Some(cache) => Fetched(Success(cache), c)
    case None =>
      var got := K8s.Get(kv.client, c, kv.configmapName);
      match got.result
      case Failure(NotFound) => Fetched(Success(map[]), got.cluster)
      case Failure(e) => Fetched(Failure(Api(e)), got.cluster)
      case Success(binaryData) => Fetched(Success(binaryData.GetOr(map[])), got.cluster)
  }

  /** Get: the value stored under `key` in the view, or ErrKeyValueNotFound. */
  function Get(kv: KeyValue, c: Cluster, key: string): (r: Fetched<Bytes>)
    ensures r.cluster.objects == c.objects && r.cluster.writes == c.writes
    ensures Cached(kv) ==> r.cluster == c
    ensures Cached(kv) || NextFault(c).None? ==>
      r.result == (if key in View(kv, c) then Success(View(kv, c)[key]) else Failure(KeyValueNotFound))
    ensures !Cached(kv) && NextFault(c).Some? && NextFault(c).value != NotFound ==>
      r.result == Failure(Api(NextFault(c).value))
    ensures r.result.Failure? && r.result.error != KeyValueNotFound ==>
      !Cached(kv) && r.result.error.Api? && r.result.error.cause != NotFound
  {
    var fetched := GetMapData(kv, c);
    match fetched.result
    case Failure(e) => Fetched(Failure(e), fetched.cluster)
    case Success(data) =>
      if key in data then Fetched(Success(data[key]), fetched.cluster)
      else Fetched(Failure(KeyValueNotFound), fetched.cluster)
  }

  /** Stores `value` under `key` in the fetched map, in the cache too when there is one, and writes the whole map. */
  function Put(kv: KeyValue, c: Cluster, data: Data, key: string, value: Bytes): (r: Written)
    ensures r.cluster.writes == c.writes + 1
    ensures r.kv.configmapName == kv.configmapName && r.kv.client == kv.client
    ensures Cached(kv) ==> r.kv.internalCache == Some(data[key := value])
    ensures !Cached(kv) ==> r.kv == kv
    ensures r.result.Success? ==> r.cluster.objects == c.objects[Key(kv) := Some(data[key := value])]
    ensures r.result.Failure? ==> r.cluster.objects == c.objects
    ensures FaultFree(c) ==> r.result.Success? && FaultFree(r.cluster)
  {
    var data' := data[key := value];
    var kv' := if Cached(kv) then kv.(internalCache := Some(data')) else kv;
    var w := K8s.Set(kv.client, c, kv.configmapName, data');
    Written(if w.result.Success? then Success(()) else Failure(Api(w.result.error)), kv', w.cluster)
  }

  /**
   * Set: a byte-equal value already present costs no write and changes
   * nothing; any other value is stored and the whole map written once.
   */
  function Set(kv: KeyValue, c: Cluster, key: string, value: Bytes): (r: Written)
    ensures SameKeyValue(kv, r.kv)
    ensures !Cached(kv) ==> r.kv == kv
    ensures r.cluster.writes <= c.writes + 1
    ensures Cached(kv) && !(key in kv.internalCache.value && kv.internalCache.value[key] == value) ==>
      r.kv.internalCache == Some(kv.internalCache.value[key := value]) && r.cluster.writes == c.writes + 1
    ensures Cached(kv) && key in kv.internalCache.value && kv.internalCache.value[key] == value ==>
      r == Written(Success(()), kv, c)
    ensures FaultFree(c) ==>
      var v := View(kv, c);
      && r.result.Success?
      && View(r.kv, r.cluster) == v[key := value]
      && (r.cluster.writes == c.writes <==> key in v && v[key] == value)
      && (key in v && v[key] == value ==> r.kv == kv && r.cluster.objects == c.objects)
      && (!(key in v && v[key] == value) ==> r.cluster.objects == c.objects[Key(kv) := Some(v[key := value])])
    ensures (Cached(kv) || NextFault(c).None?) && key in View(kv, c) && View(kv, c)[key] == value ==>
      r.result.Success? && r.kv == kv && r.cluster.objects == c.objects && r.cluster.writes == c.writes
    ensures !Cached(kv) && NextFault(c).Some? && NextFault(c).value != NotFound ==>
      && r.result == Failure(Api(NextFault(c).value)) && r.kv == kv
      && r.cluster.objects == c.objects && r.cluster.writes == c.writes
  {
    var fetched := GetMapData(kv, c);
    match fetched.result
    case Failure(e) => Written(Failure(e), kv, fetched.cluster)
    case Success(data) =>
      if key in data && data[key] == value then Written(Success(()), kv, fetched.cluster)
      else Put(kv, fetched.cluster, data, key, value)
  }

  /** ForceSet: the value is stored and the whole map written, even when nothing changed. */
  function ForceSet(kv: KeyValue, c: Cluster, key: string, value: Bytes): (r: Written)
    ensures SameKeyValue(kv, r.kv)
    ensures !Cached(kv) ==> r.kv == kv
    ensures Cached(kv) ==>
      r.kv.internalCache == Some(kv.internalCache.value[key := value]) && r.cluster.writes == c.writes + 1
    ensures FaultFree(c) ==>
      var v := View(kv, c);
      && r.result.Success?
      && View(r.kv, r.cluster) == v[key := value]
      && r.cluster.objects == c.objects[Key(kv) := Some(v[key := value])]
      && r.cluster.writes == c.writes + 1
    ensures !Cached(kv) && NextFault(c).Some? && NextFault(c).value != NotFound ==>
      && r.result == Failure(Api(NextFault(c).value)) && r.kv == kv
      && r.cluster.objects == c.objects && r.cluster.writes == c.writes
  {
    var fetched := GetMapData(kv, c);
    match fetched.result
    case Failure(e) => Written(Failure(e), kv, fetched.cluster)
    case Success(data) => Put(kv, fetched.cluster, data, key, value)
  }

  /** A value that was set reads back byte for byte. */
  lemma SetThenGet(kv: KeyValue, c: Cluster, key: string, value: Bytes)
    requires FaultFree(c)
    ensures var w := Set(kv, c, key, value);
      Get(w.kv, w.cluster, key).result == Success(value)
  {
  }

  /** Set and ForceSet change only `key` in the map they write. */
  lemma WritesChangeOnlyTheKey(kv: KeyValue, c: Cluster, key: string, value: Bytes, other: string)
    requires FaultFree(c) && other != key
    ensures var w := Set(kv, c, key, value);
      Get(w.kv, w.cluster, other).result == Get(kv, c, other).result
    ensures var w := ForceSet(kv, c, key, value);
      Get(w.kv, w.cluster, other).result == Get(kv, c, other).result
  {
  }

  /**
   * Asking for a cache on a missing ConfigMap yields a pass-through KeyValue:
   * the created ConfigMap has nil BinaryData, so the cache stays nil and later
   * writes by others are seen.
   */
  lemma NilBinaryDataMeansPassThrough(cmName: string, kc: KubeClient, c: Cluster, other: Data, key: string)
    requires FaultFree(c) && K8s.Key(kc, cmName) !in c.objects
    requires key in other
    ensures var made := NewKeyValue(cmName, true, Success(kc), c);
      && made.result.Success?
      && !Cached(made.result.value)
      && var c' := made.cluster.(objects := made.cluster.objects[K8s.Key(kc, cmName) := Some(other)]);
        Get(made.result.value, c', key).result == Success(other[key])
  {
  }
}

=== FILE: kubernetes.dfy ===
/**
 * kubernetes.go: the cluster client of the current revision. Every operation
 * works on the ConfigMap `name` in the client's namespace; the singleton is an
 * explicit piece of state handed in and returned.
 */
module Kubernetes {
  import opened Results
  import opened ControlPlane
  import opened Errors
  import opened Bootstrap

  /** The ConfigMap a client operation on `name` addresses. */
  function Key(kc: KubeClient, name: string): (k: ObjectKey) {
    ObjectKey(kc.namespace, name)
  }

  /**
   * getOrCreateConfigMap: an existing ConfigMap is returned as it is; a
   * status error other than NotFound is returned; otherwise (NotFound, or an
   * error that is not a status error) an empty ConfigMap, with nil BinaryData,
   * is created.
   */
  function GetOrCreateConfigMap(kc: KubeClient, c: Cluster, name: string): (r: Response<Option<Data>>)
    ensures var k := Key(kc, name);
      && (r.result.Success? ==> k in r.cluster.objects && r.cluster.objects[k] == r.result.value)
      && (r.cluster.objects == c.objects || (k !in c.objects && r.cluster.objects == c.objects[k := None]))
    ensures var k := Key(kc, name);
      NextFault(c).None? && k in c.objects ==> r == Response(Success(c.objects[k]), Consume(c))
    ensures var k := Key(kc, name);
      FaultFree(c) && k !in c.objects ==>
        && r.result == Success(None)
        && r.cluster.objects == c.objects[k := None]
        && r.cluster.writes == c.writes + 1
    ensures NextFault(c).Some? && NextFault(c).value.Other? ==> r == Response(Failure(NextFault(c).value), Consume(c))
    ensures FaultFree(c) ==> FaultFree(r.cluster)
    ensures NextFault(c).Some? && NextFault(c).value.Transport? ==> r == Create(Consume(c), Key(kc, name), None)
  {
    var k := Key(kc, name);
    var got := Read(c, k);
    match got.result
    case Success(_) => got
    case Failure(Other(code)) => Response(Failure(Other(code)), got.cluster)
    case Failure(_) => Create(got.cluster, k, None)
  }

  /** Get: the ConfigMap's BinaryData; every error, NotFound included, is returned. */
  function Get(kc: KubeClient, c: Cluster, name: string): (r: Response<Option<Data>>)
    ensures r.cluster.objects == c.objects && r.cluster.writes == c.writes
    ensures FaultFree(c) ==> FaultFree(r.cluster)
    ensures var k := Key(kc, name);
      NextFault(c).None? ==> r.result == (if k in c.objects then Success(c.objects[k]) else Failure(NotFound))
    ensures NextFault(c).Some? ==> r.result == Failure(NextFault(c).value)
  {
    Read(c, Key(kc, name))
  }

  /**
   * Set: whole-object replace. When the read succeeds the ConfigMap is updated,
   * when it fails for any reason one is created; either way exactly one
   * mutating request is issued, and on success the ConfigMap holds exactly
   * `data`.
   */
  function Set(kc: KubeClient, c: Cluster, name: string, data: Data): (r: Response<()>)
    ensures r.cluster.writes == c.writes + 1
    ensures r.result.Success? ==> r.cluster.objects == c.objects[Key(kc, name) := Some(data)]
    ensures r.result.Failure? ==> r.cluster.objects == c.objects
    ensures FaultFree(c) ==> r.result.Success? && FaultFree(r.cluster)
  {
    var k := Key(kc, name);
    var got := Read(c, k);
    if got.result.Success? then Update(got.cluster, k, Some(data))
    else
      var made := Create(got.cluster, k, Some(data));
      Response(if made.result.Success? then Success(()) else Failure(made.result.error), made.cluster)
  }

  /** Delete: removing a missing ConfigMap counts as success. */
  function Delete(kc: KubeClient, c: Cluster, name: string): (r: Response<()>)
    ensures r.cluster.writes == c.writes + 1
    ensures NextFault(c).None? ==> r.result.Success? && r.cluster.objects == c.objects - {Key(kc, name)}
    ensures r.result.Success? ==> r.cluster.objects == c.objects - {Key(kc, name)} || r.cluster.objects == c.objects
    ensures r.result.Failure? ==> r.cluster.objects == c.objects && r.result.error != NotFound
    ensures FaultFree(c) ==> FaultFree(r.cluster)
  {
    var del := Remove(c, Key(kc, name));
    if del.result == Failure(NotFound) then Response(Success(()), del.cluster) else del
  }

  /** After a successful Set, Get returns exactly the map that was set, whichever branch Set took. */
  lemma SetThenGet(kc: KubeClient, c: Cluster, name: string, data: Data)
    requires FaultFree(c)
    ensures Get(kc, Set(kc, c, name, data).cluster, name).result == Success(Some(data))
  {
  }

  /**
   * Set takes any failed read, not only NotFound, for a missing ConfigMap: when
   * the read of an existing one fails, the create that follows is refused.
   */
  lemma SetTurnsFailedReadIntoCreate(kc: KubeClient, c: Cluster, name: string, data: Data)
    requires Key(kc, name) in c.objects
    requires NextFault(c).Some? && NextFault(Consume(c)).None?
    ensures Set(kc, c, name, data).result == Failure(Other(AlreadyExistsCode))
    ensures Set(kc, c, name, data).cluster.objects == c.objects
  {
  }

  /** Deleting twice is as good as deleting once: both succeed and the second changes nothing. */
  lemma DeleteIsIdempotent(kc: KubeClient, c: Cluster, name: string)
    requires FaultFree(c)
    ensures var once := Delete(kc, c, name);
      var twice := Delete(kc, once.cluster, name);
      && once.result.Success? && twice.result.Success?
      && Key(kc, name) !in twice.cluster.objects
      && twice.cluster.objects == once.cluster.objects
  {
  }

  /** The outcome of GetKubeClient and the singleton after it. */
  datatype Acquired = Acquired(result: Result<KubeClient, Error>, singleton: Option<KubeClient>)

  /**
   * GetKubeClient: an existing singleton is returned without constructing
   * anything; otherwise a client is constructed and becomes the singleton only
   * if every step succeeded, so a failure is not remembered.
   */
  function GetKubeClient(singleton: Option<KubeClient>, setup: Setup): (r: Acquired)
    ensures singleton.Some? ==> r == Acquired(Success(singleton.value), singleton)
    ensures singleton.None? ==> r.result == Construct(setup)
    ensures r.result.Success? ==> r.singleton == Some(r.result.value)
    ensures r.result.Failure? ==> r.singleton.None?
  {
    if singleton.Some? then Acquired(Success(singleton.value), singleton)
    else
      match Construct(setup)
      case Success(kc) => Acquired(Success(kc), Some(kc))
      case Failure(e) => Acquired(Failure(e), None)
  }

  /** Once a client has been handed out, every later call returns that client, whatever the environment says. */
  lemma SingletonIsReused(singleton: Option<KubeClient>, first: Setup, later: Setup)
    requires GetKubeClient(singleton, first).result.Success?
    ensures var a := GetKubeClient(singleton, first);
      GetKubeClient(a.singleton, later) == a
  {
  }

  /** A failed construction leaves no trace: the next call constructs afresh. */
  lemma FailureIsRetried(first: Setup, later: Setup)
    requires GetKubeClient(None, first).result.Failure?
    ensures var a := GetKubeClient(None, first);
      GetKubeClient(a.singleton, later).result == Construct(later)
  {
  }

  const TestKey: string := "test"

  /** The bytes of the string "ok". */
  const TestValue: Bytes := [0x6F, 0x6B]

  function TestData(): (d: Data) {
    map[TestKey := TestValue]
  }

  /** The read-back check of VerifyConnection: key "test" is present and holds "ok". */
  predicate ReadsBackOk(binaryData: Option<Data>) {
    binaryData.Some? && TestKey in binaryData.value && binaryData.value[TestKey] == TestValue
  }

  /** The read-back step of VerifyConnection: anything but "test" holding "ok" is a mismatch. */
  function CheckReadBack(binaryData: Option<Data>): (r: Result<(), Error>)
    ensures r.Success? <==> ReadsBackOk(binaryData)
    ensures r.Failure? ==> r.error == DataMismatched
  {
    if ReadsBackOk(binaryData) then Success(()) else Failure(DataMismatched)
  }

  datatype Verified = Verified(result: Result<(), Error>, singleton: Option<KubeClient>, cluster: Cluster)

  /** The client VerifyConnection works with: the one given, or else the singleton. */
  function Acquire(client: Option<KubeClient>, singleton: Option<KubeClient>, setup: Setup): (a: Acquired) {
    if client.Some? then Acquired(Success(client.value), singleton) else GetKubeClient(singleton, setup)
  }

  /**
   * VerifyConnection: the test ConfigMap is set to {"test": "ok"}, read back
   * and deleted, and the first failure is returned. On a healthy cluster it
   * succeeds and leaves every other ConfigMap as it was and the test one gone;
   * the read-back mismatch cannot arise without another writer.
   */
  function VerifyConnection(testMapName: string, client: Option<KubeClient>, singleton: Option<KubeClient>,
                            setup: Setup, c: Cluster): (r: Verified)
    ensures r.result != Failure(DataMismatched)
    ensures r.singleton == Acquire(client, singleton, setup).singleton
    ensures var a := Acquire(client, singleton, setup);
      a.result.Failure? ==> r.result == Failure(a.result.error) && r.cluster == c
    ensures var a := Acquire(client, singleton, setup);
      a.result.Success? && FaultFree(c) ==>
        && r.result.Success?
        && r.cluster.objects == c.objects - {Key(a.result.value, testMapName)}
        && r.cluster.writes == c.writes + 2
    ensures r.result.Success? ==> Acquire(client, singleton, setup).result.Success? && r.cluster.writes == c.writes + 2
    ensures var a := Acquire(client, singleton, setup);
      a.result.Success? ==>
        var put := Set(a.result.value, c, testMapName, TestData());
        && (put.result.Failure? ==> r.result == Failure(Api(put.result.error)) && r.cluster == put.cluster)
        && (put.result.Success? ==>
          var got := Get(a.result.value, put.cluster, testMapName);
          && (got.result.Failure? ==> r.result == Failure(Api(got.result.error)) && r.cluster == got.cluster)
          && (got.result.Success? && ReadsBackOk(got.result.value) ==>
            var del := Delete(a.result.value, got.cluster, testMapName);
            && r.cluster == del.cluster
            && (r.result.Success? <==> del.result.Success?)
            && (del.result.Failure? ==> r.result == Failure(Api(del.result.error)))))
  {
    var a := Acquire(client, singleton, setup);
    match a.result
    case Failure(e) => Verified(Failure(e), a.singleton, c)
    case Success(kc) =>
      var put := Set(kc, c, testMapName, TestData());
      if put.result.Failure? then Verified(Failure(Api(put.result.error)), a.singleton, put.cluster)
      else
        var got := Get(kc, put.cluster, testMapName);
        if got.result.Failure? then Verified(Failure(Api(got.result.error)), a.singleton, got.cluster)
        else if CheckReadBack(got.result.value).Failure? then
          Verified(CheckReadBack(got.result.value), a.singleton, got.cluster)
        else
          var del := Delete(kc, got.cluster, testMapName);
          Verified(if del.result.Success? then Success(()) else Failure(Api(del.result.error)), a.singleton, del.cluster)
  }
}

=== FILE: namespace.dfy ===
/**
 * namespace.go: the namespace comes from a trimmed environment variable when
 * that is non-blank, and otherwise from the trimmed contents of the service
 * account's namespace file. The environment and the file system are inputs:
 * the variable's value (`None` when unset) and the outcome of reading the file.
 */
module Namespace {
  import opened Results
  import opened Errors

  const NamespaceEnv: string := "NAMESPACE"
  const NamespacePath: string := "/var/run/secrets/kubernetes.io/serviceaccount/namespace"

  /**
   * Go's unicode.IsSpace: the Latin-1 spaces and, above Latin-1, the
   * characters with the Unicode White_Space property.
   */
  predicate IsSpace(ch: char) {
    ch in SpaceChars
  }

  const SpaceChars: set<char> := {
    '\t', '\n', '\U{000B}', '\U{000C}', '\r', ' ', '\U{0085}', '\U{00A0}',
    '\U{1680}',
    '\U{2000}', '\U{2001}', '\U{2002}', '\U{2003}', '\U{2004}', '\U{2005}',
    '\U{2006}', '\U{2007}', '\U{2008}', '\U{2009}', '\U{200A}',
    '\U{2028}', '\U{2029}', '\U{202F}', '\U{205F}', '\U{3000}'
  }

  predicate AllSpace(s: string) {
    forall i | 0 <= i < |s| :: IsSpace(s[i])
  }

  /** Neither the first nor the last character is a space. */
  predicate Trimmed(s: string) {
    |s| == 0 || (!IsSpace(s[0]) && !IsSpace(s[|s| - 1]))
  }

  /** `s` with its leading spaces dropped. */
  function TrimLeft(s: string): (r: string)
    ensures |r| <= |s| && r == s[|s| - |r|..]
    ensures AllSpace(s[..|s| - |r|])
    ensures |r| == 0 || !IsSpace(r[0])
  {
    if |s| > 0 && IsSpace(s[0]) then TrimLeft(s[1..]) else s
  }

  /** `s` with its trailing spaces dropped. */
  function TrimRight(s: string): (r: string)
    ensures |r| <= |s| && r == s[..|r|]
    ensures AllSpace(s[|r|..])
    ensures |r| == 0 || !IsSpace(r[|r| - 1])
  {
    if |s| > 0 && IsSpace(s[|s| - 1]) then TrimRight(s[..|s| - 1]) else s
  }

  /** `r` is the stretch of `s` starting at `i`, with nothing but spaces around it. */
  predicate CoreAt(s: string, r: string, i: int) {
    0 <= i <= |s| - |r| && r == s[i..i + |r|] && AllSpace(s[..i]) && AllSpace(s[i + |r|..])
  }

  /**
   * strings.TrimSpace: the result is the stretch of `s` left once the
   * spaces at both ends are removed, and is empty exactly when `s` is all spaces.
   */
  function TrimSpace(s: string): (r: string)
    ensures Trimmed(r)
    ensures r == [] <==> AllSpace(s)
    ensures exists i :: CoreAt(s, r, i)
  {
    TrimLeavesCore(s);
    TrimLeavesTrimmed(s);
    TrimEmptyIffAllSpace(s);
    var r := TrimRight(TrimLeft(s));
    assert CoreAt(s, r, |s| - |TrimLeft(s)|);
    r
  }

  lemma TrimLeavesCore(s: string)
    ensures CoreAt(s, TrimRight(TrimLeft(s)), |s| - |TrimLeft(s)|)
  {
    var t := TrimLeft(s);
    var r := TrimRight(t);
    var i := |s| - |t|;
    TrimSlices(s, t, r, i);
  }

  lemma TrimSlices(s: string, t: string, r: string, i: int)
    requires 0 <= i <= |s| && t == s[i..] && |r| <= |t| && r == t[..|r|]
    ensures r == s[i..i + |r|] && s[i + |r|..] == t[|r|..]
  {
  }

  lemma TrimLeavesTrimmed(s: string)
    ensures Trimmed(TrimRight(TrimLeft(s)))
  {
    var t := TrimLeft(s);
    var r := TrimRight(t);
    if |r| > 0 {
      assert r[0] == t[0];
    }
  }

  lemma TrimEmptyIffAllSpace(s: string)
    ensures TrimRight(TrimLeft(s)) == [] <==> AllSpace(s)
  {
    var t := TrimLeft(s);
    var r := TrimRight(t);
    var i := |s| - |t|;
    if r == [] {
      forall j | 0 <= j < |s| ensures IsSpace(s[j]) {
        assert s[j] == s[..i][j];
      }
    }
  }

  /** getNamespaceFromEnv: the trimmed value of the variable, unless it is unset or blank. */
  function FromEnv(variable: string, value: Option<string>): (r: Result<string, Error>)
    ensures r.Success? <==> value.Some? && !AllSpace(value.value)
    ensures r.Success? ==> r.value == TrimSpace(value.value) && |r.value| > 0 && Trimmed(r.value)
    ensures r.Failure? ==> r.error == NoValueInEnv(variable)
  {
    if value.Some? && |TrimSpace(value.value)| > 0 then Success(TrimSpace(value.value))
    else Failure(NoValueInEnv(variable))
  }

  /** getNamespaceFromPath: the trimmed file contents, or the read error. */
  function FromPath(path: string, file: Result<string, int>): (r: Result<string, Error>)
    ensures r.Success? <==> file.Success?
    ensures r.Failure? ==> r.error == ReadFailed(path, file.error)
    ensures r.Success? ==> Trimmed(r.value) && (r.value == [] <==> AllSpace(file.value))
  {
    match file
    case Success(raw) => Success(TrimSpace(raw))
    case Failure(code) => Failure(ReadFailed(path, code))
  }

  /** getNamespace: a non-blank environment value wins; otherwise the file decides. */
  function GetNamespace(env: Option<string>, file: Result<string, int>): (r: Result<string, Error>)
    ensures env.Some? && !AllSpace(env.value) ==> r == Success(TrimSpace(env.value))
    ensures !(env.Some? && !AllSpace(env.value)) ==> r == FromPath(NamespacePath, file)
    ensures r.Failure? <==> !(env.Some? && !AllSpace(env.value)) && file.Failure?
    ensures r.Failure? ==> r.error == ReadFailed(NamespacePath, file.error)
    ensures r.Success? ==> Trimmed(r.value)
    ensures r == Success("") <==> !(env.Some? && !AllSpace(env.value)) && file.Success? && AllSpace(file.value)
  {
    match FromEnv(NamespaceEnv, env)
    case Success(ns) => Success(ns)
    case Failure(_) => FromPath(NamespacePath, file)
  }

  /** Trimming a trimmed string changes nothing, so TrimSpace is idempotent. */
  lemma TrimSpaceIdempotent(s: string)
    ensures TrimSpace(TrimSpace(s)) == TrimSpace(s)
  {
    var t := TrimSpace(s);
    assert TrimLeft(t) == t;
    assert TrimRight(t) == t;
  }
}

=== FILE: results.dfy ===
/**
 * Optional values and success/failure results, the model's stand-ins for
 * Go's nil-able values and its `(value, error)` return pairs.
 */
module Results {

  /** A value that may be absent; `None` plays the part of a Go `nil`. */
  datatype Option<+T> = None | Some(value: T) {

    /** The carried value, or `default` when there is none. */
    function GetOr(default: T): (v: T) {
      match this
      case Some(v) => v
      case None => default
    }
  }

  /** Either a value or an error; `Result<(), E>` stands for a bare `error` return. */
  datatype Result<+T, +E> = Success(value: T) | Failure(error: E)
}

=== FILE: revisions.dfy ===
/**
 * How the two revisions of the package relate: the client operations are the
 * same, the managers agree whenever their modes agree, and they part ways on
 * singleton retry and on a ConfigMap with nil BinaryData.
 */
module Revisions {
  import opened Results
  import opened ControlPlane
  import opened Errors
  import opened Bootstrap
  import Kubernetes
  import K8s
  import Store
  import KeyValue

  /** The client Get and Set of k8s.go and kubernetes.go behave identically. */
  lemma ClientOperationsAgree(kc: KubeClient, c: Cluster, name: string, data: Data)
    ensures K8s.Get(kc, c, name) == Kubernetes.Get(kc, c, name)
    ensures K8s.Set(kc, c, name, data) == Kubernetes.Set(kc, c, name, data)
  {
  }

  /** A Manager and a KeyValue over the same ConfigMap, both cached with the same cache or both pass-through. */
  predicate Corresponds(m: Store.Manager, kv: KeyValue.KeyValue) {
    && m.configmapName == kv.configmapName
    && m.client == kv.client
    && kv.internalCache == (if m.cacheEnabled then Some(m.internalCache) else None)
  }

  /** Corresponding managers read alike, and Set and ForceSet keep them corresponding with equal outcomes. */
  lemma ManagersAgree(m: Store.Manager, kv: KeyValue.KeyValue, c: Cluster, key: string, value: Bytes)
    requires Corresponds(m, kv)
    ensures Store.Get(m, c, key).result == KeyValue.Get(kv, c, key).result
    ensures Store.Get(m, c, key).cluster == KeyValue.Get(kv, c, key).cluster
    ensures var w1 := Store.Set(m, c, key, value);
      var w2 := KeyValue.Set(kv, c, key, value);
      w1.result == w2.result && w1.cluster == w2.cluster && Corresponds(w1.manager, w2.kv)
    ensures var w1 := Store.ForceSet(m, c, key, value);
      var w2 := KeyValue.ForceSet(kv, c, key, value);
      w1.result == w2.result && w1.cluster == w2.cluster && Corresponds(w1.manager, w2.kv)
  {
  }

  /**
   * After a failed first construction, kubernetes.go constructs again on the
   * next call while k8s.go hands back a nil client with a nil error.
   */
  lemma SingletonRetryDiffers(first: Setup, later: Setup)
    requires Construct(first).Failure? && Construct(later).Success?
    ensures var a := Kubernetes.GetKubeClient(None, first);
      Kubernetes.GetKubeClient(a.singleton, later).result == Success(Construct(later).value)
    ensures var a := K8s.GetKubeClient(K8s.Fresh, first);
      K8s.GetKubeClient(a.state, later).result == Success(None)
  {
  }

  /**
   * Both managers asked to cache on a missing ConfigMap: the Manager caches an
   * empty map and ignores a later write by someone else, while the KeyValue,
   * left with a nil cache, sees it.
   */
  lemma CachingOnMissingDiffers(cmName: string, kc: KubeClient, c: Cluster, other: Data, key: string)
    requires FaultFree(c) && Kubernetes.Key(kc, cmName) !in c.objects
    requires key in other
    ensures var made := Store.New(cmName, true, Success(kc), c);
      && made.result.Success?
      && var c' := made.cluster.(objects := made.cluster.objects[Kubernetes.Key(kc, cmName) := Some(other)]);
        Store.Get(made.result.value, c', key).result == Failure(KeyValueNotFound)
    ensures var made := KeyValue.NewKeyValue(cmName, true, Success(kc), c);
      && made.result.Success?
      && var c' := made.cluster.(objects := made.cluster.objects[Kubernetes.Key(kc, cmName) := Some(other)]);
        KeyValue.Get(made.result.value, c', key).result == Success(other[key])
  {
  }
}

=== FILE: store.dfy ===
/**
 * store.go: the Manager, a key-value view over one ConfigMap's BinaryData.
 *
 * The mode is fixed at construction. In cached mode `internalCache` is the
 * authority: it is seeded once and never re-read, and every write pushes the
 * whole cache to the cluster. In pass-through mode every operation reads the
 * whole ConfigMap (a missing one reads as empty) and every write overwrites it.
 * Operations are atomic: the read/write lock is not modelled.
 */
module Store {
  import opened Results
  import opened ControlPlane
  import opened Errors
  import opened Bootstrap
  import Kubernetes

  datatype Manager = Manager(configmapName: string, client: KubeClient, cacheEnabled: bool, internalCache: Data)

  /** A read: its result and the cluster after it; the manager is unchanged. */
  datatype Fetched<T> = Fetched(result: Result<T, Error>, cluster: Cluster)

  /** A write: its result, the manager and the cluster after it. */
  datatype Written = Written(result: Result<(), Error>, manager: Manager, cluster: Cluster)

  function Key(m: Manager): (k: ObjectKey) {
    Kubernetes.Key(m.client, m.configmapName)
  }

  /** The map a manager presents: its cache, or what the cluster holds now. */
  function View(m: Manager, c: Cluster): (d: Data) {
    if m.cacheEnabled then m.internalCache else Contents(c, Key(m))
  }

  /** The manager keeps its identity and mode; only its cache may change. */
  predicate SameManager(m: Manager, m': Manager) {
    m'.configmapName == m.configmapName && m'.client == m.client && m'.cacheEnabled == m.cacheEnabled
  }

  /**
   * New: fails when the client could not be acquired; in cached mode also when
   * get-or-create fails, and otherwise seeds the cache from the ConfigMap,
   * a nil BinaryData giving an empty cache.
   */
  function New(cmName: string, cacheInternally: bool, acquired: Result<KubeClient, Error>, c: Cluster): (r: Fetched<Manager>)
    ensures acquired.Failure? ==> r == Fetched(Failure(acquired.error), c)
    ensures acquired.Success? && !cacheInternally ==>
      r == Fetched(Success(Manager(cmName, acquired.value, false, map[])), c)
    ensures acquired.Success? && cacheInternally ==>
      var got := Kubernetes.GetOrCreateConfigMap(acquired.value, c, cmName);
      && r.cluster == got.cluster
      && (r.result.Failure? <==> got.result.Failure?)
      && (r.result.Failure? ==> r.result.error == Api(got.result.error))
    ensures r.result.Success? ==>
      var m := r.result.value;
      && m.configmapName == cmName && m.client == acquired.value && m.cacheEnabled == cacheInternally
      && View(m, r.cluster) == Contents(r.cluster, Key(m))
      && r.cluster.writes <= c.writes + 1
    ensures acquired.Success? && FaultFree(c) ==>
      && r.result.Success?
      && View(r.result.value, r.cluster) == Contents(c, Key(r.result.value))
  {
    match acquired
    case Failure(e) => Fetched(Failure(e), c)
    case Success(kc) =>
      if !cacheInternally then Fetched(Success(Manager(cmName, kc, false, map[])), c)
      else
        var got := Kubernetes.GetOrCreateConfigMap(kc, c, cmName);
        match got.result
        case Failure(e) => Fetched(Failure(Api(e)), got.cluster)
        case Success(binaryData) => Fetched(Success(Manager(cmName, kc, true, binaryData.GetOr(map[]))), got.cluster)
  }

  /**
   * getMapData: the cache in cached mode, without any request; otherwise the
   * ConfigMap's data, where NotFound and a nil BinaryData both read as empty
   * and any other error is returned.
   */
  function GetMapData(m: Manager, c: Cluster): (r: Fetched<Data>)
    ensures m.cacheEnabled ==> r == Fetched(Success(m.internalCache), c)
    ensures !m.cacheEnabled && NextFault(c).None? ==> r.result == Success(Contents(c, Key(m)))
    ensures !m.cacheEnabled && NextFault(c).Some? ==>
      r.result == (if NextFault(c).value == NotFound then Success(map[]) else Failure(Api(NextFault(c).value)))
    ensures r.cluster.objects == c.objects && r.cluster.writes == c.writes
    ensures FaultFree(c) ==> r.result == Success(View(m, c)) && FaultFree(r.cluster)
  {
    if m.cacheEnabled then Fetched(Success(m.internalCache), c)
    else
      var got := Kubernetes.Get(m.client, c, m.configmapName);
      match got.result
      case Success(binaryData) => Fetched(Success(binaryData.GetOr(map[])), got.cluster)
      case Failure(NotFound) => Fetched(Success(map[]), got.cluster)
      case Failure(e) => Fetched(Failure(Api(e)), got.cluster)
  }

  predicate Distinct(s: seq<string>) {
    forall i, j | 0 <= i < j < |s| :: s[i] != s[j]
  }

  /** Keys: every key of the view exactly once, in no particular order. */
  method Keys(m: Manager, c: Cluster) returns (r: Result<seq<string>, Error>, c': Cluster)
    ensures c'.objects == c.objects && c'.writes == c.writes
    ensures r.Failure? <==> GetMapData(m, c).result.Failure?
    ensures r.Failure? ==> r.error == GetMapData(m, c).result.error
    ensures r.Success? ==>
      var data := GetMapData(m, c).result.value;
      && (forall k :: k in r.value <==> k in data)
      && Distinct(r.value)
      && |r.value| == |data|
    ensures FaultFree(c) ==> r.Success? && (forall k :: k in r.value <==> k in View(m, c))
  {
    var fetched := GetMapData(m, c);
    c' := fetched.cluster;
    if fetched.result.Failure? {
      return Failure(fetched.result.error), c';
    }
    var data := fetched.result.value;
    var keys: seq<string> := [];
    var rest := data.Keys;
    while rest != {}
      invariant rest <= data.Keys
      invariant forall k :: k in keys <==> k in data && k !in rest
      invariant Distinct(keys)
      invariant |keys| + |rest| == |data|
      decreases rest
    {
      var k :| k in rest;
      keys := keys + [k];
      rest := rest - {k};
    }
    return Success(keys), c';
  }

  /** Get: the value stored under `key` in the view, or ErrKeyValueNotFound. */
  function Get(m: Manager, c: Cluster, key: string): (r: Fetched<Bytes>)
    ensures r.cluster.objects == c.objects && r.cluster.writes == c.writes
    ensures m.cacheEnabled ==> r.cluster == c
    ensures m.cacheEnabled || NextFault(c).None? ==>
      r.result == (if key in View(m, c) then Success(View(m, c)[key]) else Failure(KeyValueNotFound))
    ensures !m.cacheEnabled && NextFault(c).Some? && NextFault(c).value != NotFound ==>
      r.result == Failure(Api(NextFault(c).value))
    ensures r.result.Failure? && r.result.error != KeyValueNotFound ==>
      !m.cacheEnabled && r.result.error.Api? && r.result.error.cause != NotFound
  {
    var fetched := GetMapData(m, c);
    match fetched.result
    case Failure(e) => Fetched(Failure(e), fetched.cluster)
    case Success(data) =>
      if key in data then Fetched(Success(data[key]), fetched.cluster)
      else Fetched(Failure(KeyValueNotFound), fetched.cluster)
  }

  /** Raw: the whole view. */
  function Raw(m: Manager, c: Cluster): (r: Fetched<Data>)
    ensures r.cluster.objects == c.objects && r.cluster.writes == c.writes
    ensures m.cacheEnabled ==> r == Fetched(Success(m.internalCache), c)
    ensures m.cacheEnabled || NextFault(c).None? ==> r.result == Success(View(m, c))
    ensures !m.cacheEnabled && NextFault(c).Some? && NextFault(c).value != NotFound ==>
      r.result == Failure(Api(NextFault(c).value))
    ensures r.result.Failure? ==> !m.cacheEnabled && r.result.error.Api? && r.result.error.cause != NotFound
  {
    GetMapData(m, c)
  }

  /** The outcome of a client Set, as a manager reports it. */
  function Pushed(m: Manager, m': Manager, w: Response<()>): (r: Written) {
    Written(if w.result.Success? then Success(()) else Failure(Api(w.result.error)), m', w.cluster)
  }

  /**
   * set: unless forced, a key that already holds byte-equal data is left alone
   * and nothing is written. Otherwise the key is set in the view, the cache
   * first when there is one, and the whole map is written.
   */
  function SetValue(m: Manager, c: Cluster, key: string, value: Bytes, force: bool): (r: Written)
    ensures SameManager(m, r.manager)
    ensures r.cluster.writes <= c.writes + 1
    ensures !force && m.cacheEnabled && key in m.internalCache && m.internalCache[key] == value ==>
      r == Written(Success(()), m, c)
    ensures m.cacheEnabled && (force || !(key in m.internalCache && m.internalCache[key] == value)) ==>
      r.manager.internalCache == m.internalCache[key := value] && r.cluster.writes == c.writes + 1
    ensures !m.cacheEnabled ==> r.manager == m
    ensures !m.cacheEnabled && NextFault(c).Some? && NextFault(c).value != NotFound ==>
      && r.result == Failure(Api(NextFault(c).value)) && r.manager == m
      && r.cluster.objects == c.objects && r.cluster.writes == c.writes
    ensures !force && !m.cacheEnabled && NextFault(c).None? && key in View(m, c) && View(m, c)[key] == value ==>
      r.result.Success? && r.manager == m && r.cluster.objects == c.objects && r.cluster.writes == c.writes
    ensures FaultFree(c) ==>
      var v := View(m, c);
      if !force && key in v && v[key] == value then
        r.result.Success? && r.manager == m && r.cluster.objects == c.objects && r.cluster.writes == c.writes
      else
        && r.result.Success?
        && View(r.manager, r.cluster) == v[key := value]
        && r.cluster.objects == c.objects[Key(m) := Some(v[key := value])]
        && r.cluster.writes == c.writes + 1
    ensures FaultFree(c) ==> FaultFree(r.cluster)
  {
    var fetched := GetMapData(m, c);
    match fetched.result
    case Failure(e) => Written(Failure(e), m, fetched.cluster)
    case Success(data) =>
      if !force && key in data && data[key] == value then Written(Success(()), m, fetched.cluster)
      else
        var data' := data[key := value];
        var m' := if m.cacheEnabled then m.(internalCache := data') else m;
        Pushed(m, m', Kubernetes.Set(m.client, fetched.cluster, m.configmapName, data'))
  }

  /**
   * Set: a byte-equal value already present costs no write and changes
   * nothing; any other value is stored and the whole map written once.
   */
  function Set(m: Manager, c: Cluster, key: string, value: Bytes): (r: Written)
    ensures SameManager(m, r.manager)
    ensures !m.cacheEnabled ==> r.manager == m
    ensures m.cacheEnabled && !(key in m.internalCache && m.internalCache[key] == value) ==>
      r.manager.internalCache == m.internalCache[key := value] && r.cluster.writes == c.writes + 1
    ensures FaultFree(c) ==>
      var v := View(m, c);
      && r.result.Success?
      && View(r.manager, r.cluster) == v[key := value]
      && (r.cluster.writes == c.writes <==> key in v && v[key] == value)
      && (key in v && v[key] == value ==> r.manager == m && r.cluster.objects == c.objects)
      && (!(key in v && v[key] == value) ==> r.cluster.objects == c.objects[Key(m) := Some(v[key := value])])
    ensures m.cacheEnabled && key in m.internalCache && m.internalCache[key] == value ==>
      r == Written(Success(()), m, c)
    ensures (m.cacheEnabled || NextFault(c).None?) && key in View(m, c) && View(m, c)[key] == value ==>
      r.result.Success? && r.manager == m && r.cluster.objects == c.objects && r.cluster.writes == c.writes
    ensures !m.cacheEnabled && NextFault(c).Some? && NextFault(c).value != NotFound ==>
      && r.result == Failure(Api(NextFault(c).value)) && r.manager == m
      && r.cluster.objects == c.objects && r.cluster.writes == c.writes
  {
    SetValue(m, c, key, value, false)
  }

  /** ForceSet: like Set, but the whole map is always written, even when nothing changed. */
  function ForceSet(m: Manager, c: Cluster, key: string, value: Bytes): (r: Written)
    ensures SameManager(m, r.manager)
    ensures !m.cacheEnabled ==> r.manager == m
    ensures m.cacheEnabled ==>
      r.manager.internalCache == m.internalCache[key := value] && r.cluster.writes == c.writes + 1
    ensures FaultFree(c) ==>
      var v := View(m, c);
      && r.result.Success?
      && View(r.manager, r.cluster) == v[key := value]
      && r.cluster.objects == c.objects[Key(m) := Some(v[key := value])]
      && r.cluster.writes == c.writes + 1
    ensures !m.cacheEnabled && NextFault(c).Some? && NextFault(c).value != NotFound ==>
      && r.result == Failure(Api(NextFault(c).value)) && r.manager == m
      && r.cluster.objects == c.objects && r.cluster.writes == c.writes
  {
    SetValue(m, c, key, value, true)
  }

  /** Delete: the key leaves the view and the whole map is written, whether or not the key was there. */
  function Delete(m: Manager, c: Cluster, key: string): (r: Written)
    ensures SameManager(m, r.manager)
    ensures m.cacheEnabled ==>
      r.manager.internalCache == m.internalCache - {key} && r.cluster.writes == c.writes + 1
    ensures !m.cacheEnabled ==> r.manager == m
    ensures FaultFree(c) ==>
      var v := View(m, c);
      && r.result.Success?
      && View(r.manager, r.cluster) == v - {key}
      && r.cluster.objects == c.objects[Key(m) := Some(v - {key})]
      && r.cluster.writes == c.writes + 1
    ensures FaultFree(c) ==> FaultFree(r.cluster)
    ensures !m.cacheEnabled && NextFault(c).Some? && NextFault(c).value != NotFound ==>
      && r.result == Failure(Api(NextFault(c).value)) && r.manager == m
      && r.cluster.objects == c.objects && r.cluster.writes == c.writes
  {
    var fetched := GetMapData(m, c);
    match fetched.result
    case Failure(e) => Written(Failure(e), m, fetched.cluster)
    case Success(data) =>
      var data' := data - {key};
      var m' := if m.cacheEnabled then m.(internalCache := data') else m;
      Pushed(m, m', Kubernetes.Set(m.client, fetched.cluster, m.configmapName, data'))
  }

  /**
   * Truncate: without reading the current data, the cache (if any) is emptied
   * and an empty map is written.
   */
  function Truncate(m: Manager, c: Cluster): (r: Written)
    ensures SameManager(m, r.manager)
    ensures m.cacheEnabled ==> r.manager.internalCache == map[]
    ensures !m.cacheEnabled ==> r.manager == m
    ensures r.cluster.writes == c.writes + 1
    ensures r.result.Success? ==> r.cluster.objects == c.objects[Key(m) := Some(map[])]
    ensures FaultFree(c) ==> r.result.Success? && View(r.manager, r.cluster) == map[] && FaultFree(r.cluster)
  {
    var m' := if m.cacheEnabled then m.(internalCache := map[]) else m;
    Pushed(m, m', Kubernetes.Set(m.client, c, m.configmapName, map[]))
  }

  /** A value that was set reads back byte for byte. */
  lemma SetThenGet(m: Manager, c: Cluster, key: string, value: Bytes)
    requires FaultFree(c)
    ensures var w := Set(m, c, key, value);
      Get(w.manager, w.cluster, key).result == Success(value)
  {
  }

  /** Setting a key changes no other key's reading. */
  lemma SetLeavesOtherKeys(m: Manager, c: Cluster, key: string, value: Bytes, other: string)
    requires FaultFree(c) && other != key
    ensures var w := Set(m, c, key, value);
      Get(w.manager, w.cluster, other).result == Get(m, c, other).result
  {
  }

  /** Setting the same value twice writes once: the second call writes nothing and changes nothing. */
  lemma SetTwiceWritesOnce(m: Manager, c: Cluster, key: string, value: Bytes)
    requires FaultFree(c)
    ensures var w1 := Set(m, c, key, value);
      var w2 := Set(w1.manager, w1.cluster, key, value);
      && w2.result.Success?
      && w2.manager == w1.manager
      && w2.cluster.objects == w1.cluster.objects
      && w2.cluster.writes == w1.cluster.writes <= c.writes + 1
  {
  }

  /** ForceSet with the same value twice writes twice. */
  lemma ForceSetTwiceWritesTwice(m: Manager, c: Cluster, key: string, value: Bytes)
    requires FaultFree(c)
    ensures var w1 := ForceSet(m, c, key, value);
      var w2 := ForceSet(w1.manager, w1.cluster, key, value);
      w2.cluster.writes == c.writes + 2
  {
  }

  /** After Delete the key is not found, whether or not it was ever set. */
  lemma DeleteThenGet(m: Manager, c: Cluster, key: string)
    requires FaultFree(c)
    ensures var w := Delete(m, c, key);
      Get(w.manager, w.cluster, key).result == Failure(KeyValueNotFound)
  {
  }

  /** After Truncate every key is not found. */
  lemma TruncateThenGet(m: Manager, c: Cluster, key: string)
    requires FaultFree(c)
    ensures var w := Truncate(m, c);
      Get(w.manager, w.cluster, key).result == Failure(KeyValueNotFound)
  {
  }

  /** A cached manager never consults the cluster: what it reads is the same whatever the cluster holds. */
  lemma CachedIgnoresCluster(m: Manager, c1: Cluster, c2: Cluster, key: string)
    requires m.cacheEnabled
    ensures Get(m, c1, key).result == Get(m, c2, key).result
    ensures Raw(m, c1).result == Raw(m, c2).result
  {
  }

  /**
   * In cached mode the cache is updated before the write, so when both of the
   * write's requests fail the new value is still readable from this manager
   * although the cluster never stored it.
   */
  lemma CachedKeepsValueWhenWriteFails(m: Manager, c: Cluster, key: string, value: Bytes)
    requires m.cacheEnabled && !(key in m.internalCache && m.internalCache[key] == value)
    requires NextFault(c).Some? && NextFault(Consume(c)).Some?
    ensures var w := Set(m, c, key, value);
      && w.result.Failure?
      && Get(w.manager, w.cluster, key).result == Success(value)
      && w.cluster.objects == c.objects
  {
  }

  /**
   * A cached manager pushes its whole cache, so keys another writer stored in
   * the ConfigMap since the cache was seeded are lost.
   */
  lemma CachedWriteDiscardsOtherWriters(m: Manager, c: Cluster, key: string, value: Bytes, foreign: string)
    requires m.cacheEnabled && FaultFree(c)
    requires foreign != key && foreign !in m.internalCache && foreign in Contents(c, Key(m))
    requires !(key in m.internalCache && m.internalCache[key] == value)
    ensures var w := Set(m, c, key, value);
      foreign !in Contents(w.cluster, Key(m))
  {
  }

  /** Two pass-through managers of the same ConfigMap see each other's writes. */
  lemma PassThroughManagersShare(m1: Manager, m2: Manager, c: Cluster, key: string, value: Bytes)
    requires !m1.cacheEnabled && !m2.cacheEnabled && Key(m1) == Key(m2)
    requires FaultFree(c)
    ensures var w := Set(m1, c, key, value);
      Get(m2, w.cluster, key).result == Success(value)
  {
  }

  /**
   * Opening a cached manager on a missing ConfigMap creates it empty; the
   * manager starts with no keys, and a set value is read back and is all that
   * Raw returns.
   */
  lemma OpenCachedOnMissing(cmName: string, kc: KubeClient, c: Cluster, key: string, value: Bytes)
    requires FaultFree(c) && Kubernetes.Key(kc, cmName) !in c.objects
    ensures var made := New(cmName, true, Success(kc), c);
      && made.result.Success?
      && made.cluster.objects == c.objects[Kubernetes.Key(kc, cmName) := None]
      && View(made.result.value, made.cluster) == map[]
      && var w := Set(made.result.value, made.cluster, key, value);
        && Get(w.manager, w.cluster, key).result == Success(value)
        && Raw(w.manager, w.cluster).result == Success(map[key := value])
  {
  }
}
